=== FILE: README.md ===
# LevelDB / RocksDB point-operation benchmark, modelled in Dafny

`benchmark.cc` is a small harness that loads a fresh LevelDB or RocksDB
database with `SEQ_WRITES` sequential records, warms the cache with random
reads, and then times three phases of `num_queries` random operations each:
reads of loaded keys, inserts of new keys and deletes of loaded keys. This
project models the harness's logic over an abstract map-backed store:

- `KeyCodec` (key_codec.dfy): `create_key`, which renders the sequence number
  with `%016d`, appends the one-character tag and left-pads with spaces to the
  key size. It also has a decoder `ParseKey`, and the proofs of shape, round
  trip and injectivity use it.
- `Workload` (workload.dfy): `SEQ_WRITES = 16*1024*1024 / (k+v) * 1024` and
  `num_queries = SEQ_WRITES / 1000`, evaluated in C `int` arithmetic.
- `RandSource` (rand_source.dfy): `srand`/`rand` as an oracle from (seed,
  number of draws since the seed) to a value. Only determinism matters.
- `Engine` (engine.dfy): the option records each backend is opened with, and
  the fresh-database rule of `Open` (`error_if_exists`).
- `Driver` (driver.dfy): `run_leveldb` and `run_rocksdb`, modelled once. The
  two functions differ only in the engine type and its options. The model
  covers the load loop, the warm-up, and the timed read, insert and delete
  loops.
- `Invocation` (invocation.dfy): `main` after argument parsing. It covers the
  two validation checks, the plan resolution, the dispatch to exactly one
  backend, and the exit status.
- `Outcomes` (outcomes.dfy): `Option` and `Result`.

Integers are unbounded in the model. The C widths are stated explicitly where
they matter. `key_num` is a C `int`, so `Format016` also covers negative
numbers, which print as `-` and fifteen digits. The `SEQ_WRITES` expression is
proved not to overflow a 32-bit `int` when `key_size >= 17`,
`value_size >= 0` and `key_size + value_size <= INT_MAX`. The `int` table
size becomes a `size_t` option through `ToSizeT`, which is modulo 2^64.

Behaviour of `benchmark.cc` worth noting, which the model follows:
- A failed `Open` fails `assert(status.ok())` and aborts the process; it does
  not return 1.
- Keys need `key_size >= 17`. `create_key` checks nothing, so a key size
  below 17 is a precondition here, not an error result.
- The load loop's `return 1` leaves the database handle open.
- The loops do not check whether a deleted key is present.

The environment is a parameter (`Driver.Env`). It holds the contents of the
database location, a predicate saying whether the engine accepts an Open
with given options, the payload byte stream, the `rand()` oracle, and
predicates saying whether the engine accepts a given Put or Delete. A failed
Get cannot be expressed: every Get is a verified `key in store`, which is what
the source's `assert(s.ok())` relies on.

## Model

| member | source | states |
|---|---|---|
| KeyCodec.Format016 | benchmark.cc:35 | `%016d` of a C int is 16 characters: all digits for a non-negative number, a minus sign then digits for a negative one |
| KeyCodec.FormatRoundTrip | benchmark.cc:35 | parsing the 16-character number field recovers every C int exactly |
| KeyCodec.CreateKey | benchmark.cc:33-39 | a key is exactly `key_size` characters long, one shorter when the tag is NUL, which ends the C string |
| KeyCodec.CreateKeyShape | benchmark.cc:33-39 | a key is `key_size - 17` spaces, then the 16-digit zero-padded decimal of the number, which reads back as that number, then the tag |
| KeyCodec.ParseCreateKey | benchmark.cc:33-39 | decoding a created key gives back its sequence number and tag |
| KeyCodec.CreateKeyInjective | benchmark.cc:35-37 | for a fixed key size, two keys are equal if and only if their numbers and tags are equal, so `'a'` and `'b'` keys never collide |
| RandSource.DrawsAt | benchmark.cc:74-77 | the t-th value drawn after a seed is the generator's answer for that seed and position, whatever came before |
| RandSource.ReplayPrefix | benchmark.cc:74-77 | reseeding replays: the first k draws after a seed are the same in every longer run from that seed |
| RandSource.DrawsSplit | benchmark.cc:84-112 | drawing a values and then b more is one uninterrupted stream of a + b draws |
| Workload.SeqWrites | benchmark.cc:257 | the load size is a whole number of 1024-record blocks within the 16 GiB volume, one more block would exceed it, and the C `int` product does not overflow |
| Workload.NumQueries | benchmark.cc:258 | the query count is the load size divided by 1000, rounded down |
| Workload.Resolve | benchmark.cc:257-258 | the plan holds both values, and `SEQ_WRITES == 0` implies `num_queries == 0` |
| Workload.SeqWritesIsLargestFit | benchmark.cc:257 | every whole-block load size within the volume is at most `SEQ_WRITES` |
| Workload.ResolveAntitone | benchmark.cc:257-258 | a larger record size never gives more load records or more queries |
| Workload.DefaultPlan | benchmark.cc:18-19 | with the default 128-byte keys and 512-byte values, the plan is 26843136 records and 26843 queries |
| Engine.ToSizeT | benchmark.cc:48-49 | the `int` table size becomes the `size_t` congruent to it modulo 2^64, and is unchanged when non-negative |
| Engine.OptionsFor | benchmark.cc:46-50 | for either backend, every size knob gets the table size, compression is off, and both `create_if_missing` and `error_if_exists` are set; RocksDB (lines 128-138) has three knobs and `max_open_files = 1000` |
| Engine.OpenBackend | benchmark.cc:52-54 | opening with the harness's options succeeds exactly when the engine accepts them and no database exists at the location, and yields an empty store; an engine that accepts the options fails the open only because a database exists |
| Driver.LoadedStoreHas | benchmark.cc:61-71 | after i load Puts, the store maps `create_key(m, 'a')` to the m-th payload for every m < i |
| Driver.LoadedStoreOnly | benchmark.cc:61-71 | the loaded store holds no key with another tag or a number outside `[0, i)` |
| Driver.LoadedStoreKeys | benchmark.cc:61-71 | the loaded store's keys are exactly the `'a'` keys numbered below the load size |
| Driver.LoadedCoversIndexKeys | benchmark.cc:76-80 | every key `create_key(rand() % SEQ_WRITES, 'a')` is in the fully loaded store |
| Driver.TagsSeparate | benchmark.cc:98 | keys drawn with different tags form disjoint sets |
| Driver.InsertKeysFresh | benchmark.cc:97-101 | no `'b'` key drawn for the inserts is in a store that holds only loaded `'a'` keys |
| Driver.LoadPhase | benchmark.cc:61-71 | on success the store holds the n loaded records and every Put was accepted; on failure it reports the first refused Put, with the earlier ones applied |
| Driver.ReadPhase | benchmark.cc:74-90 | issues exactly `count` Gets at the keys of the next `count` draws, every one finds its key, and it returns the value of the last one |
| Driver.InsertPhase | benchmark.cc:96-101 | issues `count` Puts of the given value at the drawn `'b'` keys, each accepted against the store the earlier ones left; the resulting store is the old one plus those keys, the others unchanged; an abort happens at the first refused Put, with exactly the earlier Puts applied |
| Driver.DeletePhase | benchmark.cc:107-112 | issues `count` Deletes at the drawn `'a'` keys, each accepted against the store the earlier ones left, and removes exactly those keys, whether present or not; an abort happens at the first refused Delete, with exactly the earlier Deletes applied |
| Driver.ReadsReplayWarmup | benchmark.cc:74-87 | the timed reads' keys are the first `num_queries` keys of the warm-up |
| Driver.QueryPhases | benchmark.cc:73-115 | after the load, a run aborts only in the insert or delete phase, and only when the engine refuses a Put or Delete; an abort at operation `at` means the engine refused that one after accepting every earlier one (for a delete abort, after every insert too); a completed run has every read, insert and delete as planned, each Put and Delete accepted against the store the earlier ones left |
| Driver.Run | benchmark.cc:41-121 | a run aborts at Open exactly when a database exists or the engine rejects the options; a load failure returns at the first refused Put; an insert or delete abort happens at the first refused Put or Delete, so an engine that accepts every Put and Delete never aborts after the load; a completed run has every timed Put and Delete accepted and leaves the loaded store minus the deleted `'a'` keys plus the inserted `'b'` keys, and every read finds its key |
| Invocation.DefaultFlags | benchmark.cc:217-220 | with no options the invocation is refused for the missing table size; with only a table size it is refused for the backend choice; adding `-l` or `-r` selects that backend; the default 128/512 sizes (lines 18-19) resolve to 26843136 records and 26843 queries |
| Invocation.Validate | benchmark.cc:249-255 | a zero table size is refused first; otherwise the invocation is refused unless exactly one of `-l` and `-r` is set, and that one is the backend |
| Invocation.ExitOf | benchmark.cc:264-267 | status 0 exactly for a completed run, 1 exactly for a failed load Put, and an assertion abort otherwise |
| Invocation.RunMain | benchmark.cc:249-268 | a refused invocation exits 1 and runs nothing; otherwise exactly the selected backend runs with the resolved plan, and the exit status is tied to the run's outcome as `Driver.Run` states it: status 0 only after a successful Open, an accepted load and a completed run as planned, status 1 only at the first refused load Put, and an assertion abort exactly at a failed Open (a database exists or the options are rejected) or at the first refused timed Put or Delete; an engine that accepts the Open, every load Put and every later Put and Delete leads to status 0 |
| Invocation.RunWithoutOptions | benchmark.cc:249-251 | `main` with no options exits with status 1 and runs no backend |

## Left out

- The real LevelDB and RocksDB engines and their on-disk state at `/mnt/db/leveldb`. They are foreign libraries. The store is a map. Whether an Open, a Put or a Delete succeeds is a parameter: an I/O error, a held lock or a rejected configuration is one more way for the engine to refuse.
- `getopt` and `std::stoi`, the unknown-option branch (lines 243-245), and diagnostics. These are process I/O. The model starts from the parsed flag values.
- `print_line_header`, `print_result` and `clock_gettime`. They are stdout output and floating-point timing arithmetic. The header flag `-b` is carried in `Flags` but has no effect in the model.
- The internals of `std::independent_bits_engine` and of `srand`/`rand`. The payload bytes are an abstract byte stream, and `rand()` is an abstract oracle from seed and draw count. The range `[0, RAND_MAX]` is not modelled, because only `rand() % SEQ_WRITES` is used.
- `delete db` (lines 118 and 211) is the engine's close. It has no observable effect on the modelled store.
- Builds with `NDEBUG`. Those builds would drop the `assert`s. The model assumes assertions are enabled, so a failed Open, Get, insert Put or Delete aborts the process.
- Workload.SeqWrites: requires `value_size >= 0` and `key_size + value_size <= INT_MAX`. Outside these bounds the C code misbehaves already at line 257: `k + v` itself can overflow, `k + v == 0` divides by zero, and a `k + v` between 1 and 8 overflows the multiplication by 1024. For a negative `k + v`, C's division truncates toward zero, which gives three cases. Below -16777216 the quotient is 0, so `SEQ_WRITES` is 0. From -16777216 to -8 it gives a negative `SEQ_WRITES`, which wraps when stored in `size_t`. From -7 to -1 the multiplication by 1024 overflows `int`. In the remaining cases with a negative value size, Open (line 52 or 139) has already created the database before the `std::vector` of line 58 or 147 throws. None of these is modelled.
- Invocation.RunMain: requires the key and value sizes above whenever validation passes, since `create_key` needs `key_size >= 17` and has no check for it.
- Driver.ReadPhase: the source's Get may in principle fail for reasons other than a missing key. The model has no such failure: a Get is a lookup in a store that provably holds the key.

=== FILE: driver.dfy ===
/**
 The phased driver shared by `run_leveldb` and `run_rocksdb`: open a fresh
 database, load the `'a'` keys, warm the cache, then time random reads,
 random `'b'` inserts and random `'a'` deletes. The two functions differ only
 in the engine type and its options, so they are modelled once over the
 abstract store of `Engine`.
 */
module Driver {
  import opened Outcomes
  import KeyCodec
  import Workload
  import RandSource
  import opened Engine

  /** Both the warm-up and the timed reads start with `srand(12321)`. */
  const WARM_SEED: int := 12321
  /** The warm-up issues ten times as many reads as a timed phase. */
  const WARMUP_ROUNDS: nat := 10
  /** The tag of loaded (and read, and deleted) keys. */
  const LOAD_TAG: char := 'a'
  /** The tag of inserted keys. */
  const INSERT_TAG: char := 'b'

  /**
   What the driver consumes but does not compute: the database location's
   contents, whether the engine accepts an Open with given options (apart
   from the existence rules), the byte stream of the default-seeded byte
   engine, the `rand()` oracle, and whether the engine accepts a given Put or
   Delete.
   */
  datatype Env = Env(
    disk: Option<Kv>,
    openOk: Options -> bool,
    payloadBytes: nat -> bv8,
    rand: RandSource.Oracle,
    putOk: (Kv, Key) -> bool,
    deleteOk: (Kv, Key) -> bool)

  datatype Phase = Opening | Inserting | Deleting

  /**
   The keys each phase issued, the value the inserts wrote (the last value a
   timed read fetched), and the store as the insert phase left it.
   */
  datatype PhaseLog = PhaseLog(
    warmupKeys: seq<Key>,
    readKeys: seq<Key>,
    insertKeys: seq<Key>,
    deleteKeys: seq<Key>,
    insertValue: Value,
    afterInserts: Kv)

  /**
   How a run ends: all phases done; a refused load Put (`return 1`); or a
   failed `assert(status.ok())` / `assert(s.ok())`, which aborts the process.
   */
  datatype RunResult =
    | Completed(store: Kv, log: PhaseLog)
    | LoadFailed(at: nat)
    | Aborted(phase: Phase, at: nat)

  function Elems(s: seq<Key>): set<Key> {
    set k | k in s
  }

  /** The key sizes and load sizes the driver can run with. */
  predicate KeySpace(keySize: int, n: nat) {
    keySize >= KeyCodec.FIXED_WIDTH && n <= KeyCodec.INT_MAX
  }

  /** The i-th loaded value: the next `valueSize` bytes of the byte engine. */
  function LoadValue(env: Env, valueSize: nat, i: nat): (v: Value)
    ensures |v| == valueSize
  {
    RecordBytes(env.payloadBytes, i * valueSize, valueSize)
  }

  /** `count` bytes of the stream from position `start`. */
  function RecordBytes(stream: nat -> bv8, start: nat, count: nat): (v: Value)
    ensures |v| == count
    ensures forall j :: 0 <= j < count ==> v[j] == stream(start + j)
  {
    seq(count, j requires 0 <= j < count => stream(start + j))
  }

  /** The store after the first `i` load Puts. */
  function LoadedStore(env: Env, keySize: int, valueSize: nat, i: nat): Kv
    requires KeySpace(keySize, i)
  {
    if i == 0 then map[]
    else LoadedStore(env, keySize, valueSize, i - 1)[KeyCodec.CreateKey(keySize, i - 1, LOAD_TAG) := LoadValue(env, valueSize, i - 1)]
  }

  /** The engine accepted the i-th load Put. */
  predicate LoadAccepted(env: Env, keySize: int, valueSize: nat, i: nat)
    requires KeySpace(keySize, i)
  {
    env.putOk(LoadedStore(env, keySize, valueSize, i), KeyCodec.CreateKey(keySize, i, LOAD_TAG))
  }

  /** The keys `create_key(rand() % n, tag)` for the given draws. */
  function IndexKeys(keySize: int, draws: seq<nat>, n: nat, tag: char): (keys: seq<Key>)
    requires KeySpace(keySize, n)
    requires |draws| == 0 || n > 0
    ensures |keys| == |draws|
  {
    seq(|draws|, t requires 0 <= t < |draws| => KeyCodec.CreateKey(keySize, draws[t] % n, tag))
  }

  /** After `i` load Puts the store holds every `'a'` key numbered below `i`, with its own payload. */
  lemma {:induction false} LoadedStoreHas(env: Env, keySize: int, valueSize: nat, i: nat, m: nat)
    requires KeySpace(keySize, i)
    requires m < i
    ensures KeyCodec.CreateKey(keySize, m, LOAD_TAG) in LoadedStore(env, keySize, valueSize, i)
    ensures LoadedStore(env, keySize, valueSize, i)[KeyCodec.CreateKey(keySize, m, LOAD_TAG)] == LoadValue(env, valueSize, m)
  {
    if m < i - 1 {
      LoadedStoreHas(env, keySize, valueSize, i - 1, m);
      KeyCodec.CreateKeyInjective(keySize, m, LOAD_TAG, i - 1, LOAD_TAG);
    }
  }

  /** ... and nothing else: no other number and no other tag. */
  lemma {:induction false} LoadedStoreOnly(env: Env, keySize: int, valueSize: nat, i: nat, m: int, tag: char)
    requires KeySpace(keySize, i)
    requires KeyCodec.IsCInt(m)
    ensures KeyCodec.CreateKey(keySize, m, tag) in LoadedStore(env, keySize, valueSize, i) ==>
              tag == LOAD_TAG && 0 <= m < i
  {
    if i > 0 {
      KeyCodec.CreateKeyInjective(keySize, m, tag, i - 1, LOAD_TAG);
      LoadedStoreOnly(env, keySize, valueSize, i - 1, m, tag);
    }
  }

  /** Every key a read phase can draw is loaded. */
  lemma LoadedCoversIndexKeys(env: Env, keySize: int, valueSize: nat, n: nat, draws: seq<nat>)
    requires KeySpace(keySize, n)
    requires |draws| == 0 || n > 0
    ensures forall k :: k in IndexKeys(keySize, draws, n, LOAD_TAG) ==> k in LoadedStore(env, keySize, valueSize, n)
  {
    forall k | k in IndexKeys(keySize, draws, n, LOAD_TAG)
      ensures k in LoadedStore(env, keySize, valueSize, n)
    {
      var t :| 0 <= t < |draws| && k == IndexKeys(keySize, draws, n, LOAD_TAG)[t];
      LoadedStoreHas(env, keySize, valueSize, n, draws[t] % n);
    }
  }

  /** Keys drawn with different tags never coincide. */
  lemma TagsSeparate(keySize: int, n: nat, d1: seq<nat>, tag1: char, d2: seq<nat>, tag2: char)
    requires KeySpace(keySize, n)
    requires (|d1| == 0 && |d2| == 0) || n > 0
    requires tag1 != tag2
    ensures Elems(IndexKeys(keySize, d1, n, tag1)) !! Elems(IndexKeys(keySize, d2, n, tag2))
  {
    var k1, k2 := IndexKeys(keySize, d1, n, tag1), IndexKeys(keySize, d2, n, tag2);
    forall i, j | 0 <= i < |k1| && 0 <= j < |k2|
      ensures k1[i] != k2[j]
    {
      KeyCodec.CreateKeyInjective(keySize, d1[i] % n, tag1, d2[j] % n, tag2);
    }
  }

  /** The load loop: Put `create_key(i, 'a')` for `i < n`, returning at the first refusal. */
  method LoadPhase(env: Env, keySize: int, valueSize: nat, n: nat) returns (kv: Kv, failedAt: Option<nat>)
    requires KeySpace(keySize, n)
    ensures failedAt.None? ==> kv == LoadedStore(env, keySize, valueSize, n)
    ensures failedAt.None? ==> forall j :: 0 <= j < n ==> LoadAccepted(env, keySize, valueSize, j)
    ensures failedAt.Some? ==> failedAt.value < n && kv == LoadedStore(env, keySize, valueSize, failedAt.value)
    ensures failedAt.Some? ==> !LoadAccepted(env, keySize, valueSize, failedAt.value)
    ensures failedAt.Some? ==> forall j :: 0 <= j < failedAt.value ==> LoadAccepted(env, keySize, valueSize, j)
  {
    kv := map[];
    var i := 0;
    while i < n
      invariant 0 <= i <= n
      invariant kv == LoadedStore(env, keySize, valueSize, i)
      invariant forall j :: 0 <= j < i ==> LoadAccepted(env, keySize, valueSize, j)
    {
      var key := KeyCodec.CreateKey(keySize, i, LOAD_TAG);
      var value := LoadValue(env, valueSize, i);
      if !env.putOk(kv, key) {
        return kv, Some(i);
      }
      assert LoadAccepted(env, keySize, valueSize, i);
      assert kv[key := value] == LoadedStore(env, keySize, valueSize, i + 1);
      kv := kv[key := value];
      i := i + 1;
    }
    return kv, None;
  }

  /**
   A read loop (the warm-up or the timed reads): `count` Gets of
   `create_key(rand() % n, 'a')`. The source asserts each Get succeeds; here
   that assertion is proved from the load.
   */
  method ReadPhase(env: Env, keySize: int, n: nat, kv: Kv, g0: RandSource.Rng, count: nat, value0: Value)
    returns (keys: seq<Key>, value: Value, g: RandSource.Rng)
    requires KeySpace(keySize, n)
    requires count == 0 || n > 0
    requires forall m :: 0 <= m < n ==> KeyCodec.CreateKey(keySize, m, LOAD_TAG) in kv
    ensures keys == IndexKeys(keySize, RandSource.Draws(env.rand, g0, count), n, LOAD_TAG)
    ensures g == RandSource.Advance(g0, count)
    ensures forall k :: k in keys ==> k in kv
    ensures value == if count == 0 then value0 else kv[keys[count - 1]]
  {
    keys, value, g := [], value0, g0;
    var t := 0;
    while t < count
      invariant 0 <= t <= count
      invariant g == RandSource.Advance(g0, t)
      invariant keys == IndexKeys(keySize, RandSource.Draws(env.rand, g0, t), n, LOAD_TAG)
      invariant forall k :: k in keys ==> k in kv
      invariant value == if t == 0 then value0 else kv[keys[t - 1]]
    {
      var index := RandSource.Draw(env.rand, g) % n;
      g := RandSource.Advance(g, 1);
      var key := KeyCodec.CreateKey(keySize, index, LOAD_TAG);
      assert key in kv;
      value := kv[key];
      keys := keys + [key];
      t := t + 1;
    }
  }

  /** The store after Putting `value` under each of `keys`, starting from `kv0`. */
  function PutEach(kv0: Kv, keys: seq<Key>, value: Value): (kv: Kv)
    ensures kv.Keys == kv0.Keys + Elems(keys)
    ensures forall k :: k in kv ==> kv[k] == if k in keys then value else kv0[k]
  {
    map k | k in kv0.Keys + Elems(keys) :: if k in keys then value else kv0[k]
  }

  /** The engine accepted the first `t` Puts of `value` under `keys`, each against the store the earlier ones left. */
  ghost predicate PutsAccepted(env: Env, kv0: Kv, keys: seq<Key>, value: Value, t: nat)
    requires t <= |keys|
  {
    forall j :: 0 <= j < t ==> env.putOk(PutEach(kv0, keys[..j], value), keys[j])
  }

  /** The engine accepted the first `t` Deletes of `keys`, each against the store the earlier ones left. */
  ghost predicate DeletesAccepted(env: Env, kv0: Kv, keys: seq<Key>, t: nat)
    requires t <= |keys|
  {
    forall j :: 0 <= j < t ==> env.deleteOk(kv0 - Elems(keys[..j]), keys[j])
  }

  /** Putting one more key is a map update of the store so far. */
  lemma PutEachExtend(kv0: Kv, keys: seq<Key>, key: Key, value: Value)
    ensures PutEach(kv0, keys + [key], value) == PutEach(kv0, keys, value)[key := value]
  {
    var before, after := PutEach(kv0, keys, value), PutEach(kv0, keys + [key], value);
    assert Elems(keys + [key]) == Elems(keys) + {key};
    assert after.Keys == before[key := value].Keys;
    forall k | k in after
      ensures after[k] == before[key := value][k]
    {
      assert k in keys + [key] <==> k in keys || k == key;
    }
  }

  /** One more Put extends the store and the accepted prefix; a refused one leaves the prefix as it was. */
  lemma PutsAcceptedExtend(env: Env, kv0: Kv, keys: seq<Key>, key: Key, value: Value)
    requires PutsAccepted(env, kv0, keys, value, |keys|)
    ensures PutEach(kv0, keys + [key], value) == PutEach(kv0, keys, value)[key := value]
    ensures PutsAccepted(env, kv0, keys + [key], value, |keys|)
    ensures env.putOk(PutEach(kv0, keys, value), key) ==> PutsAccepted(env, kv0, keys + [key], value, |keys| + 1)
  {
    PutEachExtend(kv0, keys, key, value);
    var issued := keys + [key];
    assert issued[..|keys|] == keys;
    forall j | 0 <= j < |keys|
      ensures issued[..j] == keys[..j]
    {
    }
  }

  /** One more Delete shrinks the store and extends the accepted prefix; a refused one leaves the prefix as it was. */
  lemma DeletesAcceptedExtend(env: Env, kv0: Kv, keys: seq<Key>, key: Key)
    requires DeletesAccepted(env, kv0, keys, |keys|)
    ensures kv0 - Elems(keys + [key]) == (kv0 - Elems(keys)) - {key}
    ensures DeletesAccepted(env, kv0, keys + [key], |keys|)
    ensures env.deleteOk(kv0 - Elems(keys), key) ==> DeletesAccepted(env, kv0, keys + [key], |keys| + 1)
  {
    var issued := keys + [key];
    assert issued[..|keys|] == keys;
    forall j | 0 <= j < |keys|
      ensures issued[..j] == keys[..j]
    {
    }
  }

  /**
   The timed inserts: `count` Puts of `value` under `create_key(rand() % n, 'b')`.
   An abort happens at the first refused Put, with every earlier Put accepted
   and applied.
   */
  method InsertPhase(env: Env, keySize: int, n: nat, kv0: Kv, g0: RandSource.Rng, count: nat, value: Value)
    returns (kv: Kv, keys: seq<Key>, g: RandSource.Rng, abortedAt: Option<nat>)
    requires KeySpace(keySize, n)
    requires count == 0 || n > 0
    ensures abortedAt.Some? ==> abortedAt.value < count
    ensures abortedAt.Some? ==> keys == IndexKeys(keySize, RandSource.Draws(env.rand, g0, abortedAt.value + 1), n, INSERT_TAG)
    ensures abortedAt.Some? ==> kv == PutEach(kv0, keys[..abortedAt.value], value)
    ensures abortedAt.Some? ==> kv.Keys == kv0.Keys + Elems(keys[..abortedAt.value])
    ensures abortedAt.Some? ==> PutsAccepted(env, kv0, keys, value, abortedAt.value)
    ensures abortedAt.Some? ==> !env.putOk(kv, keys[abortedAt.value])
    ensures abortedAt.None? ==> keys == IndexKeys(keySize, RandSource.Draws(env.rand, g0, count), n, INSERT_TAG)
    ensures abortedAt.None? ==> g == RandSource.Advance(g0, count)
    ensures abortedAt.None? ==> PutsAccepted(env, kv0, keys, value, count)
    ensures abortedAt.None? ==> kv == PutEach(kv0, keys, value)
    ensures abortedAt.None? ==> kv.Keys == kv0.Keys + Elems(keys)
    ensures abortedAt.None? ==> forall k :: k in kv ==> kv[k] == if k in keys then value else kv0[k]
  {
    kv, keys, g := kv0, [], g0;
    var t := 0;
    while t < count
      invariant 0 <= t <= count
      invariant g == RandSource.Advance(g0, t)
      invariant keys == IndexKeys(keySize, RandSource.Draws(env.rand, g0, t), n, INSERT_TAG)
      invariant kv == PutEach(kv0, keys, value)
      invariant PutsAccepted(env, kv0, keys, value, t)
    {
      var index := RandSource.Draw(env.rand, g) % n;
      g := RandSource.Advance(g, 1);
      var key := KeyCodec.CreateKey(keySize, index, INSERT_TAG);
      var issued := keys + [key];
      PutsAcceptedExtend(env, kv0, keys, key, value);
      if !env.putOk(kv, key) {
        assert issued[..t] == keys;
        return kv, issued, g, Some(t);
      }
      kv, keys := kv[key := value], issued;
      t := t + 1;
    }
    return kv, keys, g, None;
  }

  /**
   The timed deletes: `count` Deletes of `create_key(rand() % n, 'a')`.
   An abort happens at the first refused Delete, with every earlier Delete
   accepted and applied.
   */
  method DeletePhase(env: Env, keySize: int, n: nat, kv0: Kv, g0: RandSource.Rng, count: nat)
    returns (kv: Kv, keys: seq<Key>, g: RandSource.Rng, abortedAt: Option<nat>)
    requires KeySpace(keySize, n)
    requires count == 0 || n > 0
    ensures abortedAt.Some? ==> abortedAt.value < count
    ensures abortedAt.Some? ==> keys == IndexKeys(keySize, RandSource.Draws(env.rand, g0, abortedAt.value + 1), n, LOAD_TAG)
    ensures abortedAt.Some? ==> kv == kv0 - Elems(keys[..abortedAt.value])
    ensures abortedAt.Some? ==> DeletesAccepted(env, kv0, keys, abortedAt.value)
    ensures abortedAt.Some? ==> !env.deleteOk(kv, keys[abortedAt.value])
    ensures abortedAt.None? ==> keys == IndexKeys(keySize, RandSource.Draws(env.rand, g0, count), n, LOAD_TAG)
    ensures abortedAt.None? ==> g == RandSource.Advance(g0, count)
    ensures abortedAt.None? ==> DeletesAccepted(env, kv0, keys, count)
    ensures abortedAt.None? ==> kv == kv0 - Elems(keys)
  {
    kv, keys, g := kv0, [], g0;
    var t := 0;
    while t < count
      invariant 0 <= t <= count
      invariant g == RandSource.Advance(g0, t)
      invariant keys == IndexKeys(keySize, RandSource.Draws(env.rand, g0, t), n, LOAD_TAG)
      invariant kv == kv0 - Elems(keys)
      invariant DeletesAccepted(env, kv0, keys, t)
    {
      var index := RandSource.Draw(env.rand, g) % n;
      g := RandSource.Advance(g, 1);
      var key := KeyCodec.CreateKey(keySize, index, LOAD_TAG);
      var issued := keys + [key];
      DeletesAcceptedExtend(env, kv0, keys, key);
      if !env.deleteOk(kv, key) {
        assert issued[..t] == keys;
        return kv, issued, g, Some(t);
      }
      kv, keys := kv - {key}, issued;
      t := t + 1;
    }
    return kv, keys, g, None;
  }

  /**
   What the phases after the load promise, given the store `loaded` they
   start from and `n` = `SEQ_WRITES`, `q` = `num_queries`: one `rand()`
   stream seeded with 12321 feeds the warm-up, and is reseeded so the timed
   reads replay its first `q` indices; the inserts and deletes continue that
   stream. Every read finds its key, the inserts add only fresh `'b'` keys and
   leave the loaded keys alone, and the deletes remove only `'a'` keys.
   */
  ghost predicate PhasesAsPlanned(env: Env, keySize: int, n: nat, q: nat, loaded: Kv, store: Kv, log: PhaseLog)
    requires KeySpace(keySize, n)
    requires q == 0 || n > 0
  {
    ReadsAsPlanned(env, keySize, n, q, loaded, log) && WritesAsPlanned(env, keySize, n, q, loaded, store, log)
  }

  /** The warm-up and the timed reads, and the value the reads leave for the inserts. */
  ghost predicate ReadsAsPlanned(env: Env, keySize: int, n: nat, q: nat, loaded: Kv, log: PhaseLog)
    requires KeySpace(keySize, n)
    requires q == 0 || n > 0
  {
    var seeded := RandSource.Srand(WARM_SEED);
    && log.warmupKeys == IndexKeys(keySize, RandSource.Draws(env.rand, seeded, WARMUP_ROUNDS * q), n, LOAD_TAG)
    && log.readKeys == IndexKeys(keySize, RandSource.Draws(env.rand, seeded, q), n, LOAD_TAG)
    && |log.warmupKeys| == WARMUP_ROUNDS * q && |log.readKeys| == q
    && log.readKeys == log.warmupKeys[..q]
    && (forall k :: k in log.warmupKeys ==> k in loaded)
    && (q == 0 ==> log.insertValue == [])
    && (q > 0 ==> log.readKeys[q - 1] in loaded && log.insertValue == loaded[log.readKeys[q - 1]])
  }

  /**
   The timed inserts and deletes, continuing the stream after the timed
   reads: every Put and every Delete was accepted by the engine against the
   store the earlier ones left.
   */
  ghost predicate WritesAsPlanned(env: Env, keySize: int, n: nat, q: nat, loaded: Kv, store: Kv, log: PhaseLog)
    requires KeySpace(keySize, n)
    requires q == 0 || n > 0
  {
    var seeded := RandSource.Srand(WARM_SEED);
    && log.insertKeys == IndexKeys(keySize, RandSource.Draws(env.rand, RandSource.Advance(seeded, q), q), n, INSERT_TAG)
    && log.deleteKeys == IndexKeys(keySize, RandSource.Draws(env.rand, RandSource.Advance(seeded, 2 * q), q), n, LOAD_TAG)
    && |log.insertKeys| == q && |log.deleteKeys| == q
    && log.afterInserts == PutEach(loaded, log.insertKeys, log.insertValue)
    && PutsAccepted(env, loaded, log.insertKeys, log.insertValue, q)
    && DeletesAccepted(env, log.afterInserts, log.deleteKeys, q)
    && Elems(log.insertKeys) !! loaded.Keys
    && log.afterInserts.Keys == loaded.Keys + Elems(log.insertKeys)
    && (forall k :: k in loaded ==> log.afterInserts[k] == loaded[k])
    && Elems(log.deleteKeys) !! Elems(log.insertKeys)
    && store == log.afterInserts - Elems(log.deleteKeys)
    && store.Keys == (loaded.Keys - Elems(log.deleteKeys)) + Elems(log.insertKeys)
    && (forall k :: k in store ==> store[k] == if k in loaded then loaded[k] else log.insertValue)
  }

  /**
   A completed run of the whole driver: the phases ran as planned from the
   store the load produced.
   */
  ghost predicate CompletedAsPlanned(env: Env, keySize: int, valueSize: nat, plan: Workload.Plan, store: Kv, log: PhaseLog)
    requires KeySpace(keySize, plan.seqWrites)
    requires plan.numQueries == 0 || plan.seqWrites > 0
  {
    PhasesAsPlanned(env, keySize, plan.seqWrites, plan.numQueries, LoadedStore(env, keySize, valueSize, plan.seqWrites), store, log)
  }

  /**
   An abort in the insert phase at its `at`-th Put: the timed reads ran as
   planned, the first `at` Puts of the last value read were accepted, and the
   engine refused the next one against the store they left.
   */
  ghost predicate InsertAbortAsPlanned(env: Env, keySize: int, n: nat, q: nat, loaded: Kv, at: nat)
    requires KeySpace(keySize, n)
    requires q == 0 || n > 0
  {
    && at < q
    && var seeded := RandSource.Srand(WARM_SEED);
       var timedReads := IndexKeys(keySize, RandSource.Draws(env.rand, seeded, q), n, LOAD_TAG);
       var inserts := IndexKeys(keySize, RandSource.Draws(env.rand, RandSource.Advance(seeded, q), at + 1), n, INSERT_TAG);
       && timedReads[q - 1] in loaded
       && PutsAccepted(env, loaded, inserts, loaded[timedReads[q - 1]], at)
       && !env.putOk(PutEach(loaded, inserts[..at], loaded[timedReads[q - 1]]), inserts[at])
  }

  /**
   An abort in the delete phase at its `at`-th Delete: every timed Put was
   accepted, the first `at` Deletes were accepted, and the engine refused the
   next one against the store they left.
   */
  ghost predicate DeleteAbortAsPlanned(env: Env, keySize: int, n: nat, q: nat, loaded: Kv, at: nat)
    requires KeySpace(keySize, n)
    requires q == 0 || n > 0
  {
    && at < q
    && var seeded := RandSource.Srand(WARM_SEED);
       var timedReads := IndexKeys(keySize, RandSource.Draws(env.rand, seeded, q), n, LOAD_TAG);
       var inserts := IndexKeys(keySize, RandSource.Draws(env.rand, RandSource.Advance(seeded, q), q), n, INSERT_TAG);
       var deletes := IndexKeys(keySize, RandSource.Draws(env.rand, RandSource.Advance(seeded, 2 * q), at + 1), n, LOAD_TAG);
       && timedReads[q - 1] in loaded
       && PutsAccepted(env, loaded, inserts, loaded[timedReads[q - 1]], q)
       && var afterInserts := PutEach(loaded, inserts, loaded[timedReads[q - 1]]);
          && DeletesAccepted(env, afterInserts, deletes, at)
          && !env.deleteOk(afterInserts - Elems(deletes[..at]), deletes[at])
  }

  /** Inserted `'b'` keys are never among the keys of a store holding only `'a'` keys. */
  lemma InsertKeysFresh(keySize: int, n: nat, loaded: Kv, draws: seq<nat>)
    requires KeySpace(keySize, n)
    requires |draws| == 0 || n > 0
    requires forall k :: k in loaded ==> exists m :: 0 <= m < n && k == KeyCodec.CreateKey(keySize, m, LOAD_TAG)
    ensures Elems(IndexKeys(keySize, draws, n, INSERT_TAG)) !! loaded.Keys
  {
    var keys := IndexKeys(keySize, draws, n, INSERT_TAG);
    forall t | 0 <= t < |keys|
      ensures keys[t] !in loaded
    {
      if keys[t] in loaded {
        var m :| 0 <= m < n && keys[t] == KeyCodec.CreateKey(keySize, m, LOAD_TAG);
        KeyCodec.CreateKeyInjective(keySize, m, LOAD_TAG, draws[t] % n, INSERT_TAG);
      }
    }
  }

  /** Every key of the loaded store is an `'a'` key numbered below the load size. */
  lemma {:induction false} LoadedStoreKeys(env: Env, keySize: int, valueSize: nat, n: nat)
    requires KeySpace(keySize, n)
    ensures forall m :: 0 <= m < n ==> KeyCodec.CreateKey(keySize, m, LOAD_TAG) in LoadedStore(env, keySize, valueSize, n)
    ensures forall k :: k in LoadedStore(env, keySize, valueSize, n) ==>
              exists m :: 0 <= m < n && k == KeyCodec.CreateKey(keySize, m, LOAD_TAG)
  {
    forall m | 0 <= m < n
      ensures KeyCodec.CreateKey(keySize, m, LOAD_TAG) in LoadedStore(env, keySize, valueSize, n)
    {
      LoadedStoreHas(env, keySize, valueSize, n, m);
    }
    LoadedStoreDomain(env, keySize, valueSize, n);
  }

  lemma {:induction false} LoadedStoreDomain(env: Env, keySize: int, valueSize: nat, i: nat)
    requires KeySpace(keySize, i)
    ensures forall k :: k in LoadedStore(env, keySize, valueSize, i) ==>
              exists m :: 0 <= m < i && k == KeyCodec.CreateKey(keySize, m, LOAD_TAG)
  {
    if i > 0 {
      LoadedStoreDomain(env, keySize, valueSize, i - 1);
      var last := KeyCodec.CreateKey(keySize, i - 1, LOAD_TAG);
      forall k | k in LoadedStore(env, keySize, valueSize, i)
        ensures exists m :: 0 <= m < i && k == KeyCodec.CreateKey(keySize, m, LOAD_TAG)
      {
        if k == last {
          assert 0 <= i - 1 < i && k == KeyCodec.CreateKey(keySize, i - 1, LOAD_TAG);
        } else {
          assert k in LoadedStore(env, keySize, valueSize, i - 1);
          var m :| 0 <= m < i - 1 && k == KeyCodec.CreateKey(keySize, m, LOAD_TAG);
          assert 0 <= m < i;
        }
      }
    }
  }

  /** Keying a prefix of the draws gives a prefix of the keys. */
  lemma IndexKeysPrefix(keySize: int, draws: seq<nat>, n: nat, tag: char, k: nat)
    requires KeySpace(keySize, n)
    requires |draws| == 0 || n > 0
    requires k <= |draws|
    ensures IndexKeys(keySize, draws, n, tag)[..k] == IndexKeys(keySize, draws[..k], n, tag)
  {
  }

  /** The timed reads replay the first `q` keys of the warm-up. */
  lemma ReadsReplayWarmup(env: Env, keySize: int, n: nat, q: nat)
    requires KeySpace(keySize, n)
    requires q == 0 || n > 0
    ensures IndexKeys(keySize, RandSource.Draws(env.rand, RandSource.Srand(WARM_SEED), q), n, LOAD_TAG)
         == IndexKeys(keySize, RandSource.Draws(env.rand, RandSource.Srand(WARM_SEED), WARMUP_ROUNDS * q), n, LOAD_TAG)[..q]
  {
    var seeded := RandSource.Srand(WARM_SEED);
    RandSource.ReplayPrefix(env.rand, seeded, q, WARMUP_ROUNDS * q);
    IndexKeysPrefix(keySize, RandSource.Draws(env.rand, seeded, WARMUP_ROUNDS * q), n, LOAD_TAG, q);
  }

  /** What the two read loops established, in the shape of `ReadsAsPlanned`. */
  lemma ReadsFromPhases(env: Env, keySize: int, n: nat, q: nat, loaded: Kv, log: PhaseLog)
    requires KeySpace(keySize, n)
    requires q == 0 || n > 0
    requires log.warmupKeys == IndexKeys(keySize, RandSource.Draws(env.rand, RandSource.Srand(WARM_SEED), WARMUP_ROUNDS * q), n, LOAD_TAG)
    requires log.readKeys == IndexKeys(keySize, RandSource.Draws(env.rand, RandSource.Srand(WARM_SEED), q), n, LOAD_TAG)
    requires forall k :: k in log.warmupKeys ==> k in loaded
    requires forall k :: k in log.readKeys ==> k in loaded
    requires log.insertValue == if q == 0 then [] else loaded[log.readKeys[q - 1]]
    ensures ReadsAsPlanned(env, keySize, n, q, loaded, log)
  {
    ReadsReplayWarmup(env, keySize, n, q);
  }

  /** What the insert and delete loops established, in the shape of `WritesAsPlanned`. */
  lemma WritesFromPhases(env: Env, keySize: int, n: nat, q: nat, loaded: Kv, store: Kv, log: PhaseLog)
    requires KeySpace(keySize, n)
    requires q == 0 || n > 0
    requires forall k :: k in loaded ==> exists m :: 0 <= m < n && k == KeyCodec.CreateKey(keySize, m, LOAD_TAG)
    requires log.insertKeys == IndexKeys(keySize, RandSource.Draws(env.rand, RandSource.Advance(RandSource.Srand(WARM_SEED), q), q), n, INSERT_TAG)
    requires log.deleteKeys == IndexKeys(keySize, RandSource.Draws(env.rand, RandSource.Advance(RandSource.Srand(WARM_SEED), 2 * q), q), n, LOAD_TAG)
    requires log.afterInserts.Keys == loaded.Keys + Elems(log.insertKeys)
    requires log.afterInserts == PutEach(loaded, log.insertKeys, log.insertValue)
    requires PutsAccepted(env, loaded, log.insertKeys, log.insertValue, q)
    requires DeletesAccepted(env, log.afterInserts, log.deleteKeys, q)
    requires store == log.afterInserts - Elems(log.deleteKeys)
    ensures WritesAsPlanned(env, keySize, n, q, loaded, store, log)
  {
    var seeded := RandSource.Srand(WARM_SEED);
    InsertKeysFresh(keySize, n, loaded, RandSource.Draws(env.rand, RandSource.Advance(seeded, q), q));
    TagsSeparate(keySize, n, RandSource.Draws(env.rand, RandSource.Advance(seeded, 2 * q), q), LOAD_TAG,
                 RandSource.Draws(env.rand, RandSource.Advance(seeded, q), q), INSERT_TAG);
  }

  /**
   The phases after the load, from a store that holds every `'a'` key below
   `n` and nothing else: warm-up, timed reads, timed inserts, timed deletes.
   */
  method QueryPhases(env: Env, keySize: int, n: nat, q: nat, loaded: Kv) returns (r: RunResult)
    requires KeySpace(keySize, n)
    requires q == 0 || n > 0
    requires forall m :: 0 <= m < n ==> KeyCodec.CreateKey(keySize, m, LOAD_TAG) in loaded
    requires forall k :: k in loaded ==> exists m :: 0 <= m < n && k == KeyCodec.CreateKey(keySize, m, LOAD_TAG)
    ensures !r.LoadFailed?
    ensures r.Aborted? ==> r.phase != Opening && r.at < q
    ensures r.Aborted? && r.phase == Inserting ==> InsertAbortAsPlanned(env, keySize, n, q, loaded, r.at)
    ensures r.Aborted? && r.phase == Deleting ==> DeleteAbortAsPlanned(env, keySize, n, q, loaded, r.at)
    ensures (forall kv, k :: env.putOk(kv, k) && env.deleteOk(kv, k)) ==> !r.Aborted?
    ensures r.Completed? ==> PhasesAsPlanned(env, keySize, n, q, loaded, r.store, r.log)
  {
    var seeded := RandSource.Srand(WARM_SEED);
    var warmup, value, g := ReadPhase(env, keySize, n, loaded, seeded, WARMUP_ROUNDS * q, []);
    var timedReads;
    timedReads, value, g := ReadPhase(env, keySize, n, loaded, seeded, q, value);

    var afterInserts, inserts, abortedAt;
    afterInserts, inserts, g, abortedAt := InsertPhase(env, keySize, n, loaded, RandSource.Advance(seeded, q), q, value);
    if abortedAt.Some? {
      assert InsertAbortAsPlanned(env, keySize, n, q, loaded, abortedAt.value);
      return Aborted(Inserting, abortedAt.value);
    }

    var store, deletes;
    store, deletes, g, abortedAt := DeletePhase(env, keySize, n, afterInserts, RandSource.Advance(seeded, 2 * q), q);
    if abortedAt.Some? {
      assert DeleteAbortAsPlanned(env, keySize, n, q, loaded, abortedAt.value);
      return Aborted(Deleting, abortedAt.value);
    }

    var log := PhaseLog(warmup, timedReads, inserts, deletes, value, afterInserts);
    ReadsFromPhases(env, keySize, n, q, loaded, log);
    WritesFromPhases(env, keySize, n, q, loaded, store, log);
    r := Completed(store, log);
  }

  /**
   What one run promises about its outcome: it aborts at Open exactly when a
   database exists or the engine rejects the options; a load failure is at
   the first refused Put; an abort after the load is at the first refused
   timed Put or Delete, after every load Put was accepted; and a completed
   run had every Put and Delete accepted and left the planned store.
   */
  ghost predicate RunAsPlanned(backend: Backend, tableSize: int, keySize: int, valueSize: int, plan: Workload.Plan, env: Env, r: RunResult)
    requires Workload.ValidSizes(keySize, valueSize)
    requires plan == Workload.Resolve(keySize, valueSize)
  {
    var loaded := LoadedStore(env, keySize, valueSize, plan.seqWrites);
    && ((r.Aborted? && r.phase == Opening) <==> env.disk.Some? || !env.openOk(OptionsFor(backend, tableSize)))
    && (r.LoadFailed? ==> r.at < plan.seqWrites && !LoadAccepted(env, keySize, valueSize, r.at))
    && (r.LoadFailed? ==> forall j :: 0 <= j < r.at ==> LoadAccepted(env, keySize, valueSize, j))
    && (r.Completed? || (r.Aborted? && r.phase != Opening) ==>
          forall j :: 0 <= j < plan.seqWrites ==> LoadAccepted(env, keySize, valueSize, j))
    && (r.Aborted? && r.phase != Opening ==> r.at < plan.numQueries)
    && (r.Aborted? && r.phase == Inserting ==> InsertAbortAsPlanned(env, keySize, plan.seqWrites, plan.numQueries, loaded, r.at))
    && (r.Aborted? && r.phase == Deleting ==> DeleteAbortAsPlanned(env, keySize, plan.seqWrites, plan.numQueries, loaded, r.at))
    && ((forall kv, k :: env.putOk(kv, k) && env.deleteOk(kv, k)) ==> !(r.Aborted? && r.phase != Opening))
    && (r.Completed? ==> CompletedAsPlanned(env, keySize, valueSize, plan, r.store, r.log))
  }

  /**
   One run of `run_leveldb` or `run_rocksdb` (chosen by `backend`) with the
   plan `main` resolved: open, load, warm up, then the three timed phases.
   */
  method Run(backend: Backend, tableSize: int, keySize: int, valueSize: int, plan: Workload.Plan, env: Env)
    returns (r: RunResult)
    requires Workload.ValidSizes(keySize, valueSize)
    requires plan == Workload.Resolve(keySize, valueSize)
    ensures (r.Aborted? && r.phase == Opening) <==> env.disk.Some? || !env.openOk(OptionsFor(backend, tableSize))
    ensures r.LoadFailed? ==> r.at < plan.seqWrites && !LoadAccepted(env, keySize, valueSize, r.at)
    ensures r.LoadFailed? ==> forall j :: 0 <= j < r.at ==> LoadAccepted(env, keySize, valueSize, j)
    ensures r.Completed? || (r.Aborted? && r.phase != Opening) ==>
              forall j :: 0 <= j < plan.seqWrites ==> LoadAccepted(env, keySize, valueSize, j)
    ensures r.Aborted? && r.phase != Opening ==> r.at < plan.numQueries
    ensures r.Aborted? && r.phase == Inserting ==>
              InsertAbortAsPlanned(env, keySize, plan.seqWrites, plan.numQueries, LoadedStore(env, keySize, valueSize, plan.seqWrites), r.at)
    ensures r.Aborted? && r.phase == Deleting ==>
              DeleteAbortAsPlanned(env, keySize, plan.seqWrites, plan.numQueries, LoadedStore(env, keySize, valueSize, plan.seqWrites), r.at)
    ensures (forall kv, k :: env.putOk(kv, k) && env.deleteOk(kv, k)) ==> !(r.Aborted? && r.phase != Opening)
    ensures r.Completed? ==> CompletedAsPlanned(env, keySize, valueSize, plan, r.store, r.log)
    ensures RunAsPlanned(backend, tableSize, keySize, valueSize, plan, env, r)
  {
    var n, q := plan.seqWrites, plan.numQueries;
    var openResult := OpenBackend(backend, tableSize, env.disk, env.openOk);
    if openResult.Err? {
      return Aborted(Opening, 0);
    }

    var loaded, failedAt := LoadPhase(env, keySize, valueSize, n);
    if failedAt.Some? {
      return LoadFailed(failedAt.value);
    }
    LoadedStoreKeys(env, keySize, valueSize, n);
    r := QueryPhases(env, keySize, n, q, loaded);
  }
}

=== FILE: engine.dfy ===
/**
 The storage engine as the driver sees it: a key-value map, the options each
 backend is opened with, and the fresh-database rule that `Open` enforces.
 */
module Engine {
  import opened Outcomes

  type Key = seq<char>
  /** A value is the byte string built from the payload vector. */
  type Value = seq<bv8>
  /** The contents of a database. */
  type Kv = map<Key, Value>

  /** `size_t` and `uint64_t` are 64 bits wide. */
  const SIZE_T_MODULUS: nat := 0x1_0000_0000_0000_0000

  /** The two engines the harness can drive: `-l` and `-r`. */
  datatype Backend = LevelDb | RocksDb

  /** The engines' default is Snappy; the harness turns it off. */
  datatype Compression = NoCompression | SnappyCompression

  /** The `leveldb::Options` fields the harness assigns. */
  datatype LevelDbOptions = LevelDbOptions(
    createIfMissing: bool,
    errorIfExists: bool,
    maxFileSize: nat,
    writeBufferSize: nat,
    compression: Compression)

  /** The `rocksdb::Options` fields the harness assigns. */
  datatype RocksDbOptions = RocksDbOptions(
    createIfMissing: bool,
    errorIfExists: bool,
    targetFileSizeBase: nat,
    writeBufferSize: nat,
    dbWriteBufferSize: nat,
    maxOpenFiles: int,
    compression: Compression)

  datatype Options = LevelDbOpts(level: LevelDbOptions) | RocksDbOpts(rocks: RocksDbOptions)

  /** The conversion of the `int` table size into an unsigned 64-bit option. */
  function ToSizeT(x: int): (r: nat)
    ensures r < SIZE_T_MODULUS
    ensures (r - x) % SIZE_T_MODULUS == 0
    ensures 0 <= x < SIZE_T_MODULUS ==> r == x
    ensures 0 - SIZE_T_MODULUS <= x < 0 ==> r == x + SIZE_T_MODULUS
  {
    x % SIZE_T_MODULUS
  }

  /** The options `run_leveldb` opens its database with. */
  function LevelDbOptionsFor(tableSize: int): LevelDbOptions {
    LevelDbOptions(
      createIfMissing := true,
      errorIfExists := true,
      maxFileSize := ToSizeT(tableSize),
      writeBufferSize := ToSizeT(tableSize),
      compression := NoCompression)
  }

  /** The options `run_rocksdb` opens its database with. */
  function RocksDbOptionsFor(tableSize: int): RocksDbOptions {
    RocksDbOptions(
      createIfMissing := true,
      errorIfExists := true,
      targetFileSizeBase := ToSizeT(tableSize),
      writeBufferSize := ToSizeT(tableSize),
      dbWriteBufferSize := ToSizeT(tableSize),
      maxOpenFiles := 1000,
      compression := NoCompression)
  }

  /** The sizing knobs of a backend's options, each meant to carry the table size. */
  function SizeKnobs(o: Options): seq<nat> {
    match o
    case LevelDbOpts(l) => [l.maxFileSize, l.writeBufferSize]
    case RocksDbOpts(r) => [r.targetFileSizeBase, r.writeBufferSize, r.dbWriteBufferSize]
  }

  function CreateIfMissing(o: Options): bool {
    match o
    case LevelDbOpts(l) => l.createIfMissing
    case RocksDbOpts(r) => r.createIfMissing
  }

  function ErrorIfExists(o: Options): bool {
    match o
    case LevelDbOpts(l) => l.errorIfExists
    case RocksDbOpts(r) => r.errorIfExists
  }

  function CompressionOf(o: Options): Compression {
    match o
    case LevelDbOpts(l) => l.compression
    case RocksDbOpts(r) => r.compression
  }

  /**
   The options the chosen backend is opened with. Whichever backend it is,
   every size knob receives the table size (as `size_t`, so a negative size
   wraps to a huge one), compression is off, and the database must be fresh.
   */
  function OptionsFor(backend: Backend, tableSize: int): (o: Options)
    ensures o.LevelDbOpts? <==> backend == LevelDb
    ensures |SizeKnobs(o)| == if backend == LevelDb then 2 else 3
    ensures forall i :: 0 <= i < |SizeKnobs(o)| ==> SizeKnobs(o)[i] == ToSizeT(tableSize)
    ensures 0 < tableSize < SIZE_T_MODULUS ==> forall i :: 0 <= i < |SizeKnobs(o)| ==> SizeKnobs(o)[i] == tableSize
    ensures CompressionOf(o) == NoCompression
    ensures CreateIfMissing(o) && ErrorIfExists(o)
    ensures o.RocksDbOpts? ==> o.rocks.maxOpenFiles == 1000
  {
    match backend
    case LevelDb => LevelDbOpts(LevelDbOptionsFor(tableSize))
    case RocksDb => RocksDbOpts(RocksDbOptionsFor(tableSize))
  }

  /**
   Why `DB::Open` fails: the location already holds a database (refused
   because of `error_if_exists`), there is none and none may be created, or
   the engine refuses for any other reason: a configuration it rejects (such
   as a table size that wrapped to near 2^64), an I/O error, a held lock.
   */
  datatype OpenError = AlreadyExists | DoesNotExist | Rejected

  /**
   `DB::Open` with options `o` against the database location, which holds
   `disk` if a database is already there. `accepts(o)` says whether the
   engine gets past everything other than the existence rules.
   */
  function Open(o: Options, disk: Option<Kv>, accepts: Options -> bool): Result<Kv, OpenError> {
    if !accepts(o) then Err(Rejected)
    else match disk
      case Some(kv) => if ErrorIfExists(o) then Err(AlreadyExists) else Ok(kv)
      case None => if CreateIfMissing(o) then Ok(map[]) else Err(DoesNotExist)
  }

  /**
   Opening with the harness's options succeeds exactly when the engine
   accepts them and the location is fresh, and yields an empty store; an
   accepted open fails only because a database already exists.
   */
  function OpenBackend(backend: Backend, tableSize: int, disk: Option<Kv>, accepts: Options -> bool)
    : (r: Result<Kv, OpenError>)
    ensures r.Ok? <==> disk.None? && accepts(OptionsFor(backend, tableSize))
    ensures r.Ok? ==> r.value == map[]
    ensures !accepts(OptionsFor(backend, tableSize)) ==> r == Err(Rejected)
    ensures accepts(OptionsFor(backend, tableSize)) && r.Err? ==> r.error == AlreadyExists
  {
    Open(OptionsFor(backend, tableSize), disk, accepts)
  }
}

=== FILE: invocation.dfy ===
/**
 What `main` does once `getopt` has filled in its flags: reject a missing
 table size, then reject a backend choice that is not exactly one of `-l` and
 `-r`, then resolve the workload plan and hand over to the chosen backend's
 driver, whose result becomes the process's exit status.
 */
module Invocation {
  import opened Outcomes
  import Workload
  import Engine
  import Driver

  /**
   The flag values after argument parsing: `-l`, `-r`, `-s <table size>`,
   `-b`, `-k <key size>`, `-v <value size>`.
   */
  datatype Flags = Flags(
    leveldb: bool,
    rocksdb: bool,
    tableSize: int,
    beginLine: bool,
    keySize: int,
    valueSize: int)

  /**
   The flags before any option is seen. Without `-s` the invocation is
   refused for the missing table size; without `-l` or `-r` it is refused for
   the backend choice even once a table size is given; and the default key and
   value sizes resolve to a load of 26843136 records and 26843 queries.
   */
  function DefaultFlags(): (f: Flags)
    ensures Validate(f) == Err(MissingTableSize)
    ensures Validate(f.(tableSize := 1)) == Err(BackendChoice)
    ensures Validate(f.(tableSize := 1, leveldb := true)) == Ok(Engine.LevelDb)
    ensures Validate(f.(tableSize := 1, rocksdb := true)) == Ok(Engine.RocksDb)
    ensures Workload.ValidSizes(f.keySize, f.valueSize)
    ensures Workload.Resolve(f.keySize, f.valueSize) == Workload.Plan(26843136, 26843)
  {
    Workload.DefaultPlan();
    Flags(false, false, 0, false, Workload.DEFAULT_KEY_SIZE, Workload.DEFAULT_VALUE_SIZE)
  }

  /** Why `main` refuses to run: no `-s` (or `-s 0`), or not exactly one backend. */
  datatype ConfigError = MissingTableSize | BackendChoice

  /**
   The two checks of `main`, in their order: the table-size check comes
   first, so a zero table size is reported whatever backends are chosen.
   */
  function Validate(f: Flags): (r: Result<Engine.Backend, ConfigError>)
    ensures f.tableSize == 0 ==> r == Err(MissingTableSize)
    ensures f.tableSize != 0 && f.leveldb == f.rocksdb ==> r == Err(BackendChoice)
    ensures r.Ok? <==> f.tableSize != 0 && f.leveldb != f.rocksdb
    ensures r.Ok? ==> (r.value == Engine.LevelDb <==> f.leveldb) && (r.value == Engine.RocksDb <==> f.rocksdb)
  {
    if f.tableSize == 0 then Err(MissingTableSize)
    else if (f.leveldb && f.rocksdb) || (!f.leveldb && !f.rocksdb) then Err(BackendChoice)
    else if f.leveldb then Ok(Engine.LevelDb)
    else Ok(Engine.RocksDb)
  }

  /** How the process ends: `return <code>` from `main`, or a failed `assert`. */
  datatype Exit = Status(code: int) | AssertionAbort

  /** The status `main` passes on from the driver's return value. */
  function ExitOf(r: Driver.RunResult): (e: Exit)
    ensures e == Status(0) <==> r.Completed?
    ensures e == Status(1) <==> r.LoadFailed?
    ensures e == AssertionAbort <==> r.Aborted?
  {
    match r
    case Completed(_, _) => Status(0)
    case LoadFailed(_) => Status(1)
    case Aborted(_, _) => AssertionAbort
  }

  /**
   `main` after argument parsing. A refused invocation exits with status 1
   and runs no backend; otherwise exactly the selected backend runs, with the
   plan resolved from the key and value sizes. The exit status follows the
   run's outcome: status 0 only after a successful Open, an accepted load and
   accepted timed writes; status 1 only at a refused load Put; an assertion
   abort at a failed Open or a refused timed Put or Delete. An engine that
   accepts the Open and every Put and Delete leads to status 0.
   */
  method RunMain(f: Flags, env: Driver.Env) returns (exit: Exit, ran: Option<Engine.Backend>, result: Option<Driver.RunResult>)
    requires Validate(f).Ok? ==> Workload.ValidSizes(f.keySize, f.valueSize)
    ensures Validate(f).Err? ==> exit == Status(1) && ran.None? && result.None?
    ensures f.tableSize == 0 ==> exit == Status(1) && ran.None?
    ensures ran.Some? <==> Validate(f).Ok?
    ensures ran.Some? ==> (ran.value == Engine.LevelDb <==> f.leveldb) && (ran.value == Engine.RocksDb <==> f.rocksdb)
    ensures ran.Some? ==> result.Some? && exit == ExitOf(result.value)
    ensures exit == Status(0) ==> ran.Some? && result.Some? && result.value.Completed?
    ensures Validate(f).Ok? ==>
              ran.Some? && result.Some? &&
              Driver.RunAsPlanned(ran.value, f.tableSize, f.keySize, f.valueSize, Workload.Resolve(f.keySize, f.valueSize), env, result.value)
    ensures Validate(f).Ok? ==>
              (exit == AssertionAbort && result.value.phase == Driver.Opening <==>
                 env.disk.Some? || !env.openOk(Engine.OptionsFor(ran.value, f.tableSize)))
    ensures Validate(f).Ok? && exit == Status(1) ==>
              result.value.LoadFailed? && !Driver.LoadAccepted(env, f.keySize, f.valueSize, result.value.at)
    ensures exit == Status(0) ==>
              env.disk.None? && env.openOk(Engine.OptionsFor(ran.value, f.tableSize)) &&
              forall j :: 0 <= j < Workload.Resolve(f.keySize, f.valueSize).seqWrites ==> Driver.LoadAccepted(env, f.keySize, f.valueSize, j)
    ensures Validate(f).Ok? && result.Some? && result.value.Completed? ==>
              Driver.CompletedAsPlanned(env, f.keySize, f.valueSize, Workload.Resolve(f.keySize, f.valueSize),
                                        result.value.store, result.value.log)
    ensures Validate(f).Ok? && result.Some? && result.value.Aborted? && result.value.phase == Driver.Inserting ==>
              var plan := Workload.Resolve(f.keySize, f.valueSize);
              Driver.InsertAbortAsPlanned(env, f.keySize, plan.seqWrites, plan.numQueries,
                                          Driver.LoadedStore(env, f.keySize, f.valueSize, plan.seqWrites), result.value.at)
    ensures Validate(f).Ok? && result.Some? && result.value.Aborted? && result.value.phase == Driver.Deleting ==>
              var plan := Workload.Resolve(f.keySize, f.valueSize);
              Driver.DeleteAbortAsPlanned(env, f.keySize, plan.seqWrites, plan.numQueries,
                                          Driver.LoadedStore(env, f.keySize, f.valueSize, plan.seqWrites), result.value.at)
    ensures Validate(f).Ok? && env.disk.None? && env.openOk(Engine.OptionsFor(ran.value, f.tableSize))
            && (forall j :: 0 <= j < Workload.Resolve(f.keySize, f.valueSize).seqWrites ==> Driver.LoadAccepted(env, f.keySize, f.valueSize, j))
            && (forall kv, k :: env.putOk(kv, k) && env.deleteOk(kv, k)) ==>
              exit == Status(0)
  {
    var checked := Validate(f);
    if checked.Err? {
      return Status(1), None, None;
    }
    var plan := Workload.Resolve(f.keySize, f.valueSize);
    var backend := checked.value;
    var r := Driver.Run(backend, f.tableSize, f.keySize, f.valueSize, plan, env);
    return ExitOf(r), Some(backend), Some(r);
  }

  /** `main` invoked with no options at all: it exits with status 1 and runs no backend. */
  method RunWithoutOptions(env: Driver.Env) returns (exit: Exit, ran: Option<Engine.Backend>)
    ensures exit == Status(1) && ran.None?
  {
    var result;
    exit, ran, result := RunMain(DefaultFlags(), env);
  }
}

=== FILE: key_codec.dfy ===
/**
 The key codec of the benchmark: `create_key(key_num, letter)` renders the
 sequence number with printf's `%016d`, appends the one-character tag with
 `%c`, and left-pads the result with spaces up to the configured key size.
 */
module KeyCodec {
  import opened Outcomes

  const INT_MIN: int := -0x8000_0000
  const INT_MAX: int := 0x7fff_ffff

  /** Width of the `%016d` field. */
  const NUM_WIDTH: nat := 16
  /** Characters of a key that are not padding: the number field and the tag. */
  const FIXED_WIDTH: nat := 17

  /** The values of a C `int`, the type of `key_num`. */
  predicate IsCInt(n: int) {
    INT_MIN <= n <= INT_MAX
  }

  function Pow10(k: nat): (r: nat)
    ensures r >= 1
  {
    if k == 0 then 1 else 10 * Pow10(k - 1)
  }

  predicate IsDigit(c: char) {
    '0' <= c <= '9'
  }

  predicate AllDigits(s: seq<char>) {
    forall i :: 0 <= i < |s| ==> IsDigit(s[i])
  }

  function DigitChar(d: int): (c: char)
    requires 0 <= d < 10
    ensures IsDigit(c)
  {
    (48 + d) as char
  }

  function DigitValue(c: char): (d: int)
    requires IsDigit(c)
    ensures 0 <= d < 10
  {
    c as int - 48
  }

  /** The `width` low-order decimal digits of `n`, most significant first. */
  function Digits(n: nat, width: nat): (s: seq<char>)
    ensures |s| == width
    ensures AllDigits(s)
  {
    if width == 0 then [] else Digits(n / 10, width - 1) + [DigitChar(n % 10)]
  }

  /** The number a string of decimal digits denotes. */
  function DigitsValue(s: seq<char>): nat
    requires AllDigits(s)
  {
    if |s| == 0 then 0 else 10 * DigitsValue(s[..|s| - 1]) + DigitValue(s[|s| - 1])
  }

  /** Reading back a zero-padded rendering gives the number, when it fits the width. */
  lemma {:induction false} DigitsRoundTrip(n: nat, width: nat)
    requires n < Pow10(width)
    ensures DigitsValue(Digits(n, width)) == n
  {
    if width > 0 {
      var s := Digits(n, width);
      assert n / 10 < Pow10(width - 1);
      DigitsRoundTrip(n / 10, width - 1);
      assert s[..|s| - 1] == Digits(n / 10, width - 1);
      assert DigitValue(s[|s| - 1]) == n % 10;
    }
  }

  /**
   printf's `%016d` of a C int: zero padded to sixteen characters, a minus
   sign counting toward the width. No C int needs more than sixteen.
   */
  function Format016(n: int): (s: seq<char>)
    requires IsCInt(n)
    ensures |s| == NUM_WIDTH
    ensures n >= 0 ==> AllDigits(s)
    ensures n < 0 ==> s[0] == '-' && AllDigits(s[1..])
  {
    if n >= 0 then Digits(n, NUM_WIDTH) else ['-'] + Digits(-n, NUM_WIDTH - 1)
  }

  /** Reads a sixteen-character number field back; the inverse of `Format016`. */
  function ParseNumber(s: seq<char>): Option<int>
    requires |s| == NUM_WIDTH
  {
    if s[0] == '-' && AllDigits(s[1..]) then
      var magnitude: int := DigitsValue(s[1..]);
      Some(-magnitude)
    else if AllDigits(s) then Some(DigitsValue(s))
    else None
  }

  /** Every C int magnitude fits in fifteen digits. */
  lemma CIntFitsFifteenDigits()
    ensures INT_MAX + 1 < Pow10(NUM_WIDTH - 1) < Pow10(NUM_WIDTH)
  {
    assert Pow10(15) == 1000000000000000;
  }

  lemma FormatRoundTrip(n: int)
    requires IsCInt(n)
    ensures ParseNumber(Format016(n)) == Some(n)
  {
    var s := Format016(n);
    CIntFitsFifteenDigits();
    if n >= 0 {
      DigitsRoundTrip(n, NUM_WIDTH);
      assert s[0] != '-';
    } else {
      DigitsRoundTrip(-n, NUM_WIDTH - 1);
      assert s[1..] == Digits(-n, NUM_WIDTH - 1);
    }
  }

  function Spaces(k: nat): (s: seq<char>)
    ensures |s| == k
    ensures forall i :: 0 <= i < k ==> s[i] == ' '
  {
    seq(k, _ => ' ')
  }

  /**
   What `%c` contributes once the buffer becomes a `std::string`: a NUL
   letter ends the C string, so it contributes nothing.
   */
  function TagChars(letter: char): seq<char> {
    if letter == '\0' then [] else [letter]
  }

  /** `create_key(key_num, letter)` for a key size of `keySize`. */
  function CreateKey(keySize: int, keyNum: int, letter: char): (key: seq<char>)
    requires keySize >= FIXED_WIDTH
    requires IsCInt(keyNum)
    ensures |key| == if letter == '\0' then keySize - 1 else keySize
  {
    Spaces(keySize - FIXED_WIDTH) + Format016(keyNum) + TagChars(letter)
  }

  /**
   A key is `keySize - 17` spaces, then the number field (sixteen digits for
   a non-negative number, a minus sign first otherwise), then the tag.
   */
  lemma CreateKeyShape(keySize: int, keyNum: int, letter: char)
    requires keySize >= FIXED_WIDTH
    requires IsCInt(keyNum)
    ensures forall i :: 0 <= i < keySize - FIXED_WIDTH ==> CreateKey(keySize, keyNum, letter)[i] == ' '
    ensures keyNum >= 0 ==> AllDigits(CreateKey(keySize, keyNum, letter)[keySize - FIXED_WIDTH .. keySize - 1])
    ensures keyNum >= 0 ==>
              DigitsValue(CreateKey(keySize, keyNum, letter)[keySize - FIXED_WIDTH .. keySize - 1]) == keyNum
    ensures keyNum < 0 ==> CreateKey(keySize, keyNum, letter)[keySize - FIXED_WIDTH] == '-'
    ensures letter != '\0' ==> CreateKey(keySize, keyNum, letter)[keySize - 1] == letter
  {
    var key := CreateKey(keySize, keyNum, letter);
    assert key[keySize - FIXED_WIDTH .. keySize - 1] == Format016(keyNum);
    if keyNum >= 0 {
      CIntFitsFifteenDigits();
      DigitsRoundTrip(keyNum, NUM_WIDTH);
    }
  }

  /** The fields a key was built from. */
  datatype KeyFields = KeyFields(keyNum: int, letter: char)

  /** Decodes a key of the given key size, or `None` if it does not have the key shape. */
  function ParseKey(keySize: int, key: seq<char>): Option<KeyFields> {
    if keySize < FIXED_WIDTH || |key| < keySize - 1 || |key| > keySize then None
    else if !(forall i :: 0 <= i < keySize - FIXED_WIDTH ==> key[i] == ' ') then None
    else
      var letter := if |key| == keySize then key[keySize - 1] else '\0';
      var num := ParseNumber(key[keySize - FIXED_WIDTH .. keySize - 1]);
      if num.None? || (|key| == keySize && letter == '\0') then None
      else Some(KeyFields(num.value, letter))
  }

  /** Decoding a created key recovers its sequence number and tag. */
  lemma ParseCreateKey(keySize: int, keyNum: int, letter: char)
    requires keySize >= FIXED_WIDTH
    requires IsCInt(keyNum)
    ensures ParseKey(keySize, CreateKey(keySize, keyNum, letter)) == Some(KeyFields(keyNum, letter))
  {
    var key := CreateKey(keySize, keyNum, letter);
    assert key[keySize - FIXED_WIDTH .. keySize - 1] == Format016(keyNum);
    FormatRoundTrip(keyNum);
  }

  /**
   For a fixed key size, distinct (sequence number, tag) pairs give distinct
   keys; in particular `'a'` keys and `'b'` keys never collide.
   */
  lemma CreateKeyInjective(keySize: int, n1: int, l1: char, n2: int, l2: char)
    requires keySize >= FIXED_WIDTH
    requires IsCInt(n1) && IsCInt(n2)
    ensures CreateKey(keySize, n1, l1) == CreateKey(keySize, n2, l2) <==> n1 == n2 && l1 == l2
  {
    ParseCreateKey(keySize, n1, l1);
    ParseCreateKey(keySize, n2, l2);
  }
}

=== FILE: outcomes.dfy ===
/** The model's two failure-carrying result types. */
module Outcomes {

  /** A value that may be absent; `Some` carries it. */
  datatype Option<+T> = None | Some(value: T)

  /** The outcome of an operation that can fail: `Ok` with its value, or `Err` with the reason. */
  datatype Result<+T, +E> = Ok(value: T) | Err(error: E)
}

=== FILE: rand_source.dfy ===
/**
 The C library generator behind `srand`/`rand`, seen only through its
 determinism: after `srand(seed)`, the k-th call of `rand()` returns the same
 number every time. The generator itself is a parameter (an oracle).
 */
module RandSource {

  /** `oracle(seed, k)`: what the k-th `rand()` after `srand(seed)` returns. */
  type Oracle = (int, nat) -> nat

  /** The generator's state: the last seed and the number of draws since. */
  datatype Rng = Rng(seed: int, calls: nat)

  /** `srand(seed)`. */
  function Srand(seed: int): Rng {
    Rng(seed, 0)
  }

  /** The value of the next `rand()`. */
  function Draw(oracle: Oracle, g: Rng): nat {
    oracle(g.seed, g.calls)
  }

  /** The state after `count` more calls of `rand()`. */
  function Advance(g: Rng, count: nat): Rng {
    Rng(g.seed, g.calls + count)
  }

  /** The values of the next `count` calls of `rand()`, in call order. */
  function Draws(oracle: Oracle, g: Rng, count: nat): (s: seq<nat>)
    ensures |s| == count
  {
    if count == 0 then [] else Draws(oracle, g, count - 1) + [Draw(oracle, Advance(g, count - 1))]
  }

  /** Each value drawn is the oracle's answer for its position after the seed. */
  lemma {:induction false} DrawsAt(oracle: Oracle, g: Rng, count: nat, t: nat)
    requires t < count
    ensures Draws(oracle, g, count)[t] == oracle(g.seed, g.calls + t)
  {
    if t < count - 1 {
      DrawsAt(oracle, g, count - 1, t);
    }
  }

  /**
   Reseeding replays: the first `k` draws after a seed are the same whichever
   longer run they start.
   */
  lemma {:induction false} ReplayPrefix(oracle: Oracle, g: Rng, k: nat, m: nat)
    requires k <= m
    ensures Draws(oracle, g, m)[..k] == Draws(oracle, g, k)
  {
    if k < m {
      ReplayPrefix(oracle, g, k, m - 1);
      assert Draws(oracle, g, m)[..m - 1] == Draws(oracle, g, m - 1);
    }
  }

  /** Drawing `a` values and then `b` more continues one stream. */
  lemma {:induction false} DrawsSplit(oracle: Oracle, g: Rng, a: nat, b: nat)
    ensures Draws(oracle, g, a + b) == Draws(oracle, g, a) + Draws(oracle, Advance(g, a), b)
  {
    if b > 0 {
      DrawsSplit(oracle, g, a, b - 1);
    }
  }
}

=== FILE: workload.dfy ===
/**
 Workload parameters: `main` derives the number of sequentially loaded
 records (`SEQ_WRITES`) from the record size and a fixed 16 GiB volume, and
 the number of operations per timed phase (`num_queries`) from that.
 */
module Workload {
  import KeyCodec

  const DEFAULT_KEY_SIZE: int := 128
  const DEFAULT_VALUE_SIZE: int := 512

  /** The dividend `16 * 1024 * 1024`, divided by the record size first. */
  const BUDGET_DIVIDEND: nat := 16 * 1024 * 1024
  /** The multiplier `1024`, applied after the division. */
  const SCALE: nat := 1024
  /** The volume the load phase aims at: 16 GiB. */
  const BUDGET_BYTES: nat := BUDGET_DIVIDEND * SCALE
  /** The number of queries is one thousandth of the load size. */
  const QUERY_DIVISOR: nat := 1000

  /** The resolved globals `SEQ_WRITES` and `num_queries`. */
  datatype Plan = Plan(seqWrites: nat, numQueries: nat)

  /**
   The sizes the computation is defined for: a key must hold the 17 fixed
   characters, and the C `int` sum `key_size + value_size` must not overflow.
   */
  predicate ValidSizes(keySize: int, valueSize: int) {
    && keySize >= KeyCodec.FIXED_WIDTH
    && valueSize >= 0
    && keySize + valueSize <= KeyCodec.INT_MAX
  }

  function RecordSize(keySize: int, valueSize: int): (r: nat)
    requires ValidSizes(keySize, valueSize)
    ensures r >= KeyCodec.FIXED_WIDTH
  {
    keySize + valueSize
  }

  /** A load size that is a whole number of 1024-record blocks and stays within the volume. */
  predicate FitsBudget(records: nat, recordSize: nat) {
    records % SCALE == 0 && records * recordSize <= BUDGET_BYTES
  }

  lemma DivisionBounds(a: nat, b: nat)
    requires b > 0
    ensures (a / b) * b <= a < (a / b + 1) * b
  {
  }

  lemma MulMonotone(x: nat, a: nat, b: nat)
    requires a <= b
    ensures x * a <= x * b
  {
  }

  lemma MulScale(x: nat, y: nat)
    ensures (x * SCALE) * y == SCALE * (x * y)
    ensures (x * SCALE + SCALE) * y == SCALE * ((x + 1) * y)
  {
  }

  /** Scaling the whole-block count by 1024 scales its volume bounds by 1024. */
  lemma ScaledBounds(blocks: nat, rec: nat)
    requires rec >= KeyCodec.FIXED_WIDTH
    requires blocks * rec <= BUDGET_DIVIDEND < (blocks + 1) * rec
    ensures blocks <= 986895
    ensures (blocks * SCALE) * rec <= BUDGET_BYTES < (blocks * SCALE + SCALE) * rec
  {
    MulMonotone(blocks, KeyCodec.FIXED_WIDTH, rec);
    MulScale(blocks, rec);
  }

  /** The facts about `16 * 1024 * 1024 / rec * 1024` that `SeqWrites` promises. */
  lemma BlockBounds(rec: nat)
    requires rec >= KeyCodec.FIXED_WIDTH
    ensures BUDGET_DIVIDEND / rec <= 986895
    ensures (BUDGET_DIVIDEND / rec * SCALE) * rec <= BUDGET_BYTES
    ensures BUDGET_BYTES < (BUDGET_DIVIDEND / rec * SCALE + SCALE) * rec
  {
    var blocks := BUDGET_DIVIDEND / rec;
    DivisionBounds(BUDGET_DIVIDEND, rec);
    ScaledBounds(blocks, rec);
  }

  /**
   `SEQ_WRITES = 16 * 1024 * 1024 / (key_size + value_size) * 1024`, evaluated
   in C `int` left to right. The result is the most 1024-record blocks whose
   volume fits the budget, and the `int` product never wraps.
   */
  function SeqWrites(keySize: int, valueSize: int): (n: nat)
    requires ValidSizes(keySize, valueSize)
    ensures FitsBudget(n, RecordSize(keySize, valueSize))
    ensures BUDGET_BYTES < (n + SCALE) * RecordSize(keySize, valueSize)
    ensures n <= KeyCodec.INT_MAX
  {
    BlockBounds(RecordSize(keySize, valueSize));
    BUDGET_DIVIDEND / RecordSize(keySize, valueSize) * SCALE
  }

  /** `num_queries = SEQ_WRITES / 1000`. */
  function NumQueries(seqWrites: nat): (q: nat)
    ensures q * QUERY_DIVISOR <= seqWrites < (q + 1) * QUERY_DIVISOR
  {
    seqWrites / QUERY_DIVISOR
  }

  /**
   The plan `main` resolves: the load size is the largest whole number of
   1024-record blocks within the volume, and the query count is its
   thousandth, rounded down.
   */
  function Resolve(keySize: int, valueSize: int): (p: Plan)
    requires ValidSizes(keySize, valueSize)
    ensures FitsBudget(p.seqWrites, RecordSize(keySize, valueSize))
    ensures BUDGET_BYTES < (p.seqWrites + SCALE) * RecordSize(keySize, valueSize)
    ensures p.numQueries * QUERY_DIVISOR <= p.seqWrites < (p.numQueries + 1) * QUERY_DIVISOR
    ensures p.seqWrites <= KeyCodec.INT_MAX
    ensures p.numQueries == 0 || p.seqWrites > 0
  {
    var n := SeqWrites(keySize, valueSize);
    Plan(n, NumQueries(n))
  }

  /** `SEQ_WRITES` is the largest load size that fits the budget. */
  lemma SeqWritesIsLargestFit(keySize: int, valueSize: int, records: nat)
    requires ValidSizes(keySize, valueSize)
    requires FitsBudget(records, RecordSize(keySize, valueSize))
    ensures records <= SeqWrites(keySize, valueSize)
  {
  }

  /** Larger records never give more load records or more queries. */
  lemma ResolveAntitone(k1: int, v1: int, k2: int, v2: int)
    requires ValidSizes(k1, v1) && ValidSizes(k2, v2)
    requires RecordSize(k1, v1) <= RecordSize(k2, v2)
    ensures Resolve(k2, v2).seqWrites <= Resolve(k1, v1).seqWrites
    ensures Resolve(k2, v2).numQueries <= Resolve(k1, v1).numQueries
  {
    var n1, n2 := SeqWrites(k1, v1), SeqWrites(k2, v2);
    MulMonotone(n2, RecordSize(k1, v1), RecordSize(k2, v2));
    SeqWritesIsLargestFit(k1, v1, n2);
    QueriesMonotone(n2, n1);
  }

  lemma QueriesMonotone(a: nat, b: nat)
    requires a <= b
    ensures NumQueries(a) <= NumQueries(b)
  {
  }

  /** The default 128-byte keys and 512-byte values. */
  lemma DefaultPlan()
    ensures Resolve(DEFAULT_KEY_SIZE, DEFAULT_VALUE_SIZE) == Plan(26843136, 26843)
  {
  }
}
